=== FILE: README.md ===
# FlyFF Simple FTool — auto-press core in Dafny

FlyFF Simple FTool is a PyQt desktop shell around the FlyFF Universe web
game. Its one piece of real logic is the auto-press feature. The user adds
numbered key controls to a side panel. Each control picks a key and an
interval range in seconds. When a control is activated, a
`KeyPressSimulator` presses that key in the game page at random intervals
drawn from the range.

This project models that logic in four modules:

- `KeyConfig` (`key_config.dfy`, from `config.py`): the fixed table of 22
  keys (digits 0–9, then F1–F12). It also holds the `KeyPressConfig`
  record and the first-match lookup `get_key_config`, which raises
  `ValueError` for an unknown key.
- `KeySimulator` (`key_simulator.dfy`, from `key_simulator.py`): the
  simulator as a class with `isActive`, `config` and a timer.
  - The timer is a value: a running flag, an interval in milliseconds, and
    the list of connected timeout handlers.
  - The random draw is a nondeterministic choice within the bounds.
  - A key press dispatched to the page is an event record appended to the
    web view's log.
  - A timeout handler's callback is a value: none, or the main.py
    callback that reschedules the simulator registered under a control id.
- `AutoPress` (`auto_press.dfy`, from `ui/auto_press.py`): the key controls
  (key selector, two spin boxes with range 1..9999 and defaults 3 and 6, a
  checkable toggle button) and the panel's list of controls.
- `Browser` (`browser.dfy`, from `main.py`):
  - the tab widget whose "+" tab stays last;
  - the window's dictionary from control id to simulator;
  - the handlers that add, remove and toggle simulators;
  - the three click handlers that tie the panel to the window;
  - one timeout of a simulator's timer, `FlyffBrowser.OnTimeout`. It lives
    on the window because the rescheduling callback looks its id up in the
    window's dictionary when it runs.

The Python panel calls its parent window, and the window reads the panel's
list. To keep modules acyclic, `AutoPressControls` does the list part and
returns the id. `FlyffBrowser.OnAddKeyClicked` and `OnRemoveClicked` then
make the calls on the window in the same order as the source: on removal,
the control leaves the list, then the window removes the simulator, then
the remaining controls are retitled.

Three facts of the code shape the model:

- The timer is a repeating `QTimer` (key_simulator.py:9); nothing sets it
  to single-shot.
- Every reschedule connects one more timeout handler (key_simulator.py:35).
- A control's id is its list position plus one (ui/auto_press.py:138,
  151), so ids are reused.

## Model

| member | source | states |
|---|---|---|
| KeyConfig.SelectorKeysAccepted | ui/auto_press.py:23-24 | a key is among the selector's items exactly when get_key_config accepts it, so every offered key is backed by a table row |
| KeyConfig.FindEntry | config.py:46-47 | the search finds nothing exactly when no row has the key; otherwise it finds the first row with that key |
| KeyConfig.GetKeyConfig | config.py:44-55 | a config is found exactly when some row has the key; its key is the name asked for and its intervals are 3 and 6; otherwise the ValueError message is "Invalid key name: " + name |
| KeyConfig.AvailableKeysLayout | config.py:13-42 | the table has 22 rows: the ten digit rows, then the twelve function-key rows |
| KeyConfig.DigitKeyRow | config.py:14-23 | digit d sits at position d, is shown as d, has key code 48 + d and code name "Digit" + d |
| KeyConfig.FunctionKeyRow | config.py:27-38 | Fn sits at position 9 + n, has key code 111 + n and code name equal to its display key "F" + n |
| KeyConfig.RowKey | config.py:13-42 | the display key of each row, from its position |
| KeyConfig.KeysDistinct | config.py:13-42 | no two rows share a display key, so the first match is the only match |
| KeyConfig.GetKeyConfigRow | config.py:44-54 | looking up any row's display key yields exactly that row's key, code and code name, with intervals 3 and 6 |
| KeyConfig.GetKeyConfigF5 | config.py:31 | "F5" gives key code 116 and code name "F5" |
| KeyConfig.GetKeyConfigF13 | config.py:46-55 | "F13" matches no row, so the lookup raises ValueError naming it |
| KeySimulator.DelayBounds | key_simulator.py:26-29 | the draw bounds are the configured seconds times 1000, swapped into ascending order when min > max |
| KeySimulator.DelayWithinConfiguredRange | key_simulator.py:26-31 | every drawn delay lies in [min(a,b)*1000, max(a,b)*1000] for configured a and b, in either order |
| KeySimulator.StopIdempotent | key_simulator.py:18-20 | after stop the simulator is inactive with its timer stopped; stopping twice gives the same state as once |
| KeySimulator.ReschedulesNoOps | main.py:144 | a no-op callback never reschedules |
| KeySimulator.ReschedulesPrefix | key_simulator.py:35 | a rescheduling handler at position i makes the whole list hold more rescheduling handlers than its first i |
| KeySimulator.Connect | key_simulator.py:35 | connecting keeps every handler already connected and adds at most one; as written, it adds exactly the new callback at the end |
| KeySimulator.Emitted | key_simulator.py:35 | one emission, at value level, when the callbacks find the firing simulator itself: it only appends handlers, at most one per rescheduling handler that ran |
| KeySimulator.AfterFiring | key_simulator.py:35 | after one timeout the old handlers are all still connected, followed by at most one new handler per rescheduling handler |
| KeySimulator.AfterFirings | key_simulator.py:35 | no number of timeouts disconnects a handler: the starting handlers stay a prefix |
| KeySimulator.EmittedAsWritten | key_simulator.py:35 | one timeout connects one extra no-op handler per rescheduling handler that ran, when the callbacks find the firing simulator itself |
| KeySimulator.HandlersAccumulate | key_simulator.py:33-35 | at value level, after n timeouts of a simulator started once under an id and still registered there, its one rescheduling handler is followed by n no-op handlers, n + 1 in all |
| KeySimulator.EmittedConnectOnce | key_simulator.py:35 | with a connect-once policy, a timeout leaves a non-empty handler list as it is |
| KeySimulator.SingleHandlerWhenConnectingOnce | key_simulator.py:33-35 | with a connect-once policy, the handler list of a started simulator stays fixed at its one rescheduling handler through any number of timeouts, so by OnTimeout's press count every timeout dispatches exactly one press |
| KeySimulator.WebView.constructor | key_simulator.py:54 | a new page has dispatched no key press |
| KeySimulator.KeyPressSimulator.constructor | key_simulator.py:7-11 | a new simulator is inactive, has no config and an idle timer with no handlers |
| KeySimulator.KeyPressSimulator.Start | key_simulator.py:13-16 | start stores the config and sets active; the timer then runs with an allowed delay, and one more handler carrying the callback is connected |
| KeySimulator.KeyPressSimulator.Stop | key_simulator.py:18-20 | stop clears the active flag and stops the timer; the config and the connected handlers stay |
| KeySimulator.KeyPressSimulator.ScheduleNextPress | key_simulator.py:22-35 | inactive or without a config, nothing changes; otherwise the timer runs with an interval from the swapped bounds, and exactly one more handler is connected |
| KeySimulator.KeyPressSimulator.SimulatePress | key_simulator.py:37-55 | inactive or without a config, nothing is dispatched and the callback is not to run; otherwise exactly one press of the configured key, code name and key code is dispatched and the callback is to run |
| AutoPress.ClampToSpinRange | ui/auto_press.py:36-37 | a spin box value always lies in 1..9999 and is the entered value when that is in range |
| AutoPress.IndexOf | ui/auto_press.py:151 | list.index: the first position holding the control |
| AutoPress.KeyPressControl.CurrentKey | ui/auto_press.py:23-24 | the selected item is the display key of the selected table row |
| AutoPress.KeyPressControl.constructor | ui/auto_press.py:9-94 | a new control offers every display key with the first one selected; spin boxes hold 3 and 6; the button is unchecked with text "Activate"; the title moves to the caption label and the group-box title is cleared |
| AutoPress.KeyPressControl.SetMinValue | ui/auto_press.py:35-37 | the minimum spin box keeps its value in 1..9999 |
| AutoPress.KeyPressControl.SetMaxValue | ui/auto_press.py:45-47 | the maximum spin box keeps its value in 1..9999 |
| AutoPress.KeyPressControl.SelectKey | ui/auto_press.py:22-24 | selecting item i makes row i's display key the current key |
| AutoPress.KeyPressControl.Click | ui/auto_press.py:55-56 | a click flips the checkable toggle button |
| AutoPress.AutoPressControls.constructor | ui/auto_press.py:98-100 | the panel starts with no controls |
| AutoPress.AutoPressControls.AddKeyControl | ui/auto_press.py:137-143 | the new control gets id len + 1, is captioned "Key " + id and is appended, so the list grows by exactly that control |
| AutoPress.AutoPressControls.DetachKeyControl | ui/auto_press.py:150-152 | the id is the control's first list position plus one; exactly that occurrence leaves the list and the rest keep their order; an unlisted control (ValueError) leaves the list as it is |
| AutoPress.AutoPressControls.RenumberTitles | ui/auto_press.py:156-158 | control k (from 0) is titled "Key k+1"; the list and everything but the titles stay |
| Browser.PyIndex | main.py:131 | Python list indexing: an index in [-len, len) selects a position, counting from the end when negative; any other index raises IndexError |
| Browser.CustomTabWidget.constructor | main.py:42 | the placeholder tab is appended first, so the bar is just the "+" tab |
| Browser.CustomTabWidget.AddTab | main.py:50-53 | a tab is inserted at count - 1, before the "+" tab, which stays last; the bar keeps its shape |
| Browser.CustomTabWidget.RemoveTab | main.py:113 | the tab at an in-range index is removed; an out-of-range index changes nothing |
| Browser.FlyffBrowser.constructor | main.py:65-92 | the window starts with one game tab before the "+" tab, no controls and no simulators |
| Browser.FlyffBrowser.AddNewTab | main.py:94-108 | a "FlyFF Universe" tab is inserted before the "+" tab |
| Browser.FlyffBrowser.CloseTab | main.py:110-113 | a tab is removed only while more than one exists, so the count never drops below one |
| Browser.FlyffBrowser.AddKeySimulator | main.py:115-117 | the id maps to a new, inactive simulator with no config, replacing any entry for the id; other entries are unchanged |
| Browser.FlyffBrowser.RemoveKeySimulator | main.py:119-123 | an absent id leaves the dictionary unchanged; a present id's simulator is stopped and only that key is removed |
| Browser.FlyffBrowser.ConnectKeyControl | main.py:125-128 | the control's button is bound to the id |
| Browser.FlyffBrowser.ToggleAutoPress | main.py:130-149 | the control at position id - 1 is used, with Python indexing. If it is checked, a config of its spin values and its key's table row is built, the id's simulator starts with a callback naming the id, and the text becomes "Deactivate". Otherwise the simulator stops and the text becomes "Activate". IndexError and KeyError change nothing |
| Browser.FlyffBrowser.StartSimulator | main.py:142-145 | the simulator under the id is active with the config, its timer runs with an allowed delay, and exactly one handler with the callback naming the id is connected |
| Browser.FlyffBrowser.StopSimulator | main.py:148 | the simulator under the id is stopped: inactive, timer stopped, config and handlers kept |
| Browser.FlyffBrowser.SetButtonText | main.py:146-149 | the listed control's button shows the given text |
| Browser.FlyffBrowser.OnAddKeyClicked | ui/auto_press.py:137-145 | id len + 1 gets a new control appended, a new inactive simulator registered under the same id (replacing any), and the button bound to it |
| Browser.FlyffBrowser.OnRemoveClicked | ui/auto_press.py:150-158 | the id is position + 1; that control leaves the list; then the simulator under that id, if any, is stopped and removed, other entries staying; then the remaining controls are titled "Key 1".."Key n"; only titles change on them; an unlisted control changes nothing |
| Browser.FlyffBrowser.DetachFromPanel | ui/auto_press.py:150-152 | the window's panel drops the control at its first position, whose position plus one is returned; an unlisted control changes nothing |
| Browser.FlyffBrowser.RenumberPanel | ui/auto_press.py:156-158 | the window's panel retitles its controls "Key 1".."Key n" and changes nothing else on them |
| Browser.FlyffBrowser.OnToggleClicked | main.py:127-128 | a click flips the button, then toggles with the bound id, acting on position id - 1 and the simulator under the id |
| Browser.FlyffBrowser.OnTimeout | key_simulator.py:35-55 | one timeout runs the handlers connected at emission in order, one press each. A callback naming an id reschedules the simulator the dictionary holds under it, adding one no-op handler; if the id has none, KeyError is raised after exactly the presses up to the first such callback. Nothing but that simulator and the page log changes |
| Browser.FlyffBrowser.RunHandler | main.py:144 | one handler: one press (key_simulator.py:54-55), then a callback naming an id reschedules the simulator under the id with a no-op callback, or raises KeyError when there is none |
| Browser.ReusedIdOrphansRunningSimulator | ui/auto_press.py:138 | add, add, activate the second, remove the first, add, deactivate, remove: a running simulator is left out of the dictionary, its handler still naming id 2 |
| Browser.TimeoutIsAfterFiring | key_simulator.py:35-55 | one OnTimeout of a registered, active simulator completes, presses once per connected handler, and leaves exactly the value-level AfterFiring of its old handlers |
| Browser.TimeoutsAccumulate | key_simulator.py:33-35 | a simulator started once under its id holds, after n timeouts through OnTimeout, its rescheduling handler and n no-op handlers; timeout n + 1 then dispatches n + 1 presses and leaves n + 1 no-op handlers |
| Browser.ToggleAfterRemovalRaisesIndexError | main.py:131 | add two controls, activate the second, remove the first, click the remaining control: toggle_auto_press(2) reads position 1 of a one-element list and raises IndexError |
| Browser.OrphanFiringRaisesKeyError | main.py:144 | the orphan's timeout completes while id 2 has an inactive simulator; once id 2 is gone, its next timeout raises KeyError |
| Browser.DropIdTwo | ui/auto_press.py:137-158 | with one control, adding a control (id 2) and removing it leaves no simulator registered |
| Browser.SecondControlActive | main.py:130-145 | two controls are added and the second one's simulator runs |
| Browser.RemoveFirstControl | ui/auto_press.py:150-158 | removing the first of two controls drops id 1; the second keeps id 2 and its running simulator |
| Browser.ReuseId | ui/auto_press.py:138-144 | with one control bound to id 2, adding a control hands out id 2 again and replaces the running simulator under it |
| Browser.DeactivateAndRemoveSecond | main.py:130-149 | deactivating and removing the older id-2 control leaves id 2 registered, bound to the newer control |
| Browser.LastGameTabClosable | main.py:110-113 | on a new window, closing tab 0 leaves only the "+" tab |
| Browser.CloseTabKeepingGameTab | main.py:110-113 | corrected close_tab: the bar keeps its shape and at least one game tab; only a game tab is removed |
| Browser.AddControlFreshId | ui/auto_press.py:137-144 | corrected id assignment from a growing counter: the new id is not registered, and ids stay distinct and match the registered simulators |
| Browser.RemoveControlOwnId | ui/auto_press.py:150-153 | corrected removal by the control's own id: exactly that id is unregistered and coherence is kept |

## Left out

- `create_icon.py`: image drawing and file output, not part of this model.
- Widget construction, layouts, style sheets, the scroll area, `addWidget` and `deleteLater`: GUI plumbing. Widgets are modelled only by the fields the logic reads.
- The injected JavaScript, its 100 ms key-down/key-up pair and `runJavaScript`: foreign calls. A dispatch is one event record (key, code name, key code) appended to the page's log.
- `random.randint`: modelled as an arbitrary choice within the bounds. Uniformity and independence of draws are not stated.
- The event loop and real timer firings: a timeout is the explicit `FlyffBrowser.OnTimeout` call. Handlers connected during an emission do not run in that emission.
- What follows an exception raised inside any Qt slot: PyQt5 by default reports it and ends the application. The model returns the error and stops the slot there. This covers the KeyError of a timer slot (`FlyffBrowser.OnTimeout` returns `TimeoutKeyError` and stops the emission), the IndexError and KeyError of `toggle_auto_press` at main.py:131, 142 and 148 (`FlyffBrowser.ToggleAutoPress` returns `IndexError` or `KeyError`), and the ValueError of `remove_key_control` at ui/auto_press.py:151 (`FlyffBrowser.OnRemoveClicked` returns `None`).
- `tab_widget.currentWidget()`: the web view a new simulator uses is a parameter of `OnAddKeyClicked` and `AddKeySimulator`, always a page. After the only game tab is closed, the current widget is most likely the "+" tab's plain placeholder widget (main.py:42); a simulator added then would fail with AttributeError when it calls `.page()` at key_simulator.py:54. That failure is not modelled.
- Object lifetime: the model never reclaims an object. In Python an orphaned simulator (Browser.ReusedIdOrphansRunningSimulator, Browser.OrphanFiringRaisesKeyError) is reachable only through the handlers connected to its own parentless timer, and it stops pressing if the cyclic garbage collector reclaims that cycle; its continued presses and later KeyError hold only until then.
- `add_new_tab`'s URL loading, page object and `setCurrentIndex`.
- `on_url_changed`, `javaScriptConsoleMessage`, `_handle_js_result`, `acceptNavigationRequest`: empty or pass-through bodies.
- The ValueError path of `get_key_config` inside `toggle_auto_press`: the selector only offers table keys, so Browser.FlyffBrowser.ToggleAutoPress proves the lookup always succeeds and has no such result.

## Findings

| source | as written | input that shows it | evidently intended | confidence | as-written member | corrected member |
|---|---|---|---|---|---|---|
| ui/auto_press.py:138 | a new control's id is len + 1, and removal renumbers by position, so an id can be handed out while a control still holds it; the orphaned simulator keeps pressing until it is garbage-collected, its callback reschedules whichever simulator holds id 2, and once id 2 is gone its timeout raises KeyError | add two controls, activate the second, remove the first, add a control, deactivate and remove the second, then add and remove a control; or, more simply, add two controls, remove the first and click the other, whose toggle_auto_press(2) raises IndexError (Browser.ToggleAfterRemovalRaisesIndexError) | each control keeps its own id, and no running simulator loses its dictionary entry | not executed | Browser.ReusedIdOrphansRunningSimulator | Browser.AddControlFreshId |
| key_simulator.py:35 | every reschedule connects one more timeout handler to a repeating timer | activate one control and let the timer fire n times while it stays registered | each timeout dispatches exactly one press and redraws the delay | not executed | Browser.TimeoutsAccumulate | KeySimulator.SingleHandlerWhenConnectingOnce |
| main.py:112 | the guard counts the "+" placeholder tab, so the last game tab can be closed; a control added afterwards most likely gets the placeholder widget instead of a page | close tab 0 on a fresh window | at least one game tab stays open | not executed | Browser.LastGameTabClosable | Browser.CloseTabKeepingGameTab |

=== FILE: auto_press.dfy ===
/** The auto-press control panel (ui/auto_press.py): one KeyPressControl
    per configured key, kept in a list whose positions give the controls
    their numbers. */
module AutoPress {
  import opened KeyConfig

  /** The range and the defaults of the two interval spin boxes, in seconds. */
  const SpinMinimum: int := 1
  const SpinMaximum: int := 9999
  const MinIntervalDefault: int := 3
  const MaxIntervalDefault: int := 6

  /** The title of the control numbered n: f'Key {n}'. */
  function KeyTitle(n: nat): string
  {
    "Key " + Decimal(n)
  }

  /** What a spin box holds after setValue(v): QSpinBox clamps to its range. */
  function ClampToSpinRange(v: int): (r: int)
    ensures SpinMinimum <= r <= SpinMaximum
    ensures SpinMinimum <= v <= SpinMaximum ==> r == v
    ensures v < SpinMinimum ==> r == SpinMinimum
    ensures v > SpinMaximum ==> r == SpinMaximum
  {
    if v < SpinMinimum then SpinMinimum else if v > SpinMaximum then SpinMaximum else v
  }

  /** The position of x in s, as list.index finds it: the first occurrence. */
  function IndexOf<T(==)>(s: seq<T>, x: T): (i: nat)
    requires x in s
    ensures i < |s| && s[i] == x
    ensures forall j :: 0 <= j < i ==> s[j] != x
  {
    if s[0] == x then 0 else 1 + IndexOf(s[1..], x)
  }

  /** KeyPressControl: a group box with a key selector, the two interval
      spin boxes and a checkable toggle button. The title passed to the
      constructor is shown in a label beside the remove button (`caption`),
      and the group-box title itself is cleared (`title`). */
  class KeyPressControl {
    var caption: string
    var title: string
    var keyItems: seq<string>
    var keyIndex: nat
    var minValue: int
    var maxValue: int
    var checked: bool
    var buttonText: string
    /** The control id main.py bound the toggle button to, once connected. */
    var boundId: Option<int>

    /** The key selector offers the table's display keys in table order and
        has one of them selected; both spin boxes hold values in range. */
    ghost predicate Valid()
      reads this
    {
      && keyItems == DisplayKeys(AvailableKeys)
      && keyIndex < |keyItems|
      && SpinMinimum <= minValue <= SpinMaximum
      && SpinMinimum <= maxValue <= SpinMaximum
    }

    /** The selected display key (key_combo.currentText()). */
    function CurrentKey(): (key: string)
      reads this
      requires Valid()
      ensures key == AvailableKeys[keyIndex].key
    {
      keyItems[keyIndex]
    }

    constructor (title: string)
      ensures Valid()
      ensures caption == title && this.title == ""
      ensures keyItems == DisplayKeys(AvailableKeys) && keyIndex == 0
      ensures minValue == MinIntervalDefault && maxValue == MaxIntervalDefault
      ensures !checked && buttonText == "Activate" && boundId == None
    {
      var items: seq<string> := [];
      for i := 0 to |AvailableKeys|
        invariant items == DisplayKeys(AvailableKeys[..i])
      {
        items := items + [AvailableKeys[i].key];
      }
      assert AvailableKeys[..|AvailableKeys|] == AvailableKeys;
      caption := title;
      this.title := "";
      keyItems := items;
      keyIndex := 0;
      minValue := ClampToSpinRange(MinIntervalDefault);
      maxValue := ClampToSpinRange(MaxIntervalDefault);
      checked := false;
      buttonText := "Activate";
      boundId := None;
    }

    /** The user enters v in the minimum-interval spin box. */
    method SetMinValue(v: int)
      requires Valid()
      modifies this`minValue
      ensures Valid() && minValue == ClampToSpinRange(v)
    {
      minValue := ClampToSpinRange(v);
    }

    /** The user enters v in the maximum-interval spin box. */
    method SetMaxValue(v: int)
      requires Valid()
      modifies this`maxValue
      ensures Valid() && maxValue == ClampToSpinRange(v)
    {
      maxValue := ClampToSpinRange(v);
    }

    /** The user picks the i-th entry of the key selector. */
    method SelectKey(i: nat)
      requires Valid() && i < |keyItems|
      modifies this`keyIndex
      ensures Valid() && keyIndex == i && CurrentKey() == AvailableKeys[i].key
    {
      keyIndex := i;
    }

    /** The user clicks the checkable toggle button, which flips its state. */
    method Click()
      requires Valid()
      modifies this`checked
      ensures Valid() && checked == !old(checked)
    {
      checked := !checked;
    }
  }

  /** Everything of a control but its group-box title is as it was. */
  twostate predicate OnlyTitleChanged(c: KeyPressControl)
    reads c
  {
    && c.caption == old(c.caption)
    && c.keyItems == old(c.keyItems)
    && c.keyIndex == old(c.keyIndex)
    && c.minValue == old(c.minValue)
    && c.maxValue == old(c.maxValue)
    && c.checked == old(c.checked)
    && c.buttonText == old(c.buttonText)
    && c.boundId == old(c.boundId)
  }

  /** Everything of a control but its toggle button's text is as it was. */
  twostate predicate OnlyButtonTextChanged(c: KeyPressControl)
    reads c
  {
    && c.caption == old(c.caption)
    && c.title == old(c.title)
    && c.keyItems == old(c.keyItems)
    && c.keyIndex == old(c.keyIndex)
    && c.minValue == old(c.minValue)
    && c.maxValue == old(c.maxValue)
    && c.checked == old(c.checked)
    && c.boundId == old(c.boundId)
  }

  /** AutoPressControls: the panel and its list of controls. The calls it
      makes on its parent window are made by the window (FlyffBrowser). */
  class AutoPressControls {
    var keyControls: seq<KeyPressControl>

    /** The list holds distinct, well-formed controls. */
    ghost predicate Valid()
      reads this, keyControls
    {
      && (forall i, j :: 0 <= i < j < |keyControls| ==> keyControls[i] != keyControls[j])
      && (forall i :: 0 <= i < |keyControls| ==> keyControls[i].Valid())
    }

    constructor ()
      ensures Valid() && keyControls == []
    {
      keyControls := [];
    }

    /** add_key_control, list part: the new control gets id len + 1, is
        captioned with that number and appended. */
    method AddKeyControl() returns (controlId: int, control: KeyPressControl)
      requires Valid()
      modifies this
      ensures Valid()
      ensures controlId == |old(keyControls)| + 1
      ensures fresh(control) && control.Valid()
      ensures control.caption == KeyTitle(controlId) && control.title == ""
      ensures control.minValue == MinIntervalDefault && control.maxValue == MaxIntervalDefault
      ensures control.keyIndex == 0 && !control.checked && control.boundId == None
      ensures keyControls == old(keyControls) + [control]
    {
      controlId := |keyControls| + 1;
      control := new KeyPressControl(KeyTitle(controlId));
      keyControls := keyControls + [control];
    }

    /** remove_key_control, list part: the id is the control's list position
        plus one, and the control leaves the list. None stands for the
        ValueError list.index raises for a control that is not listed. */
    method DetachKeyControl(control: KeyPressControl) returns (controlId: Option<int>)
      requires Valid()
      modifies this
      ensures Valid()
      ensures control !in old(keyControls) ==> controlId == None && keyControls == old(keyControls)
      ensures control in old(keyControls) ==>
        && controlId.Some?
        && var i := controlId.value - 1;
        && 0 <= i < |old(keyControls)| && old(keyControls)[i] == control
        && (forall j :: 0 <= j < i ==> old(keyControls)[j] != control)
        && keyControls == old(keyControls)[..i] + old(keyControls)[i + 1..]
    {
      if control !in keyControls {
        return None;
      }
      var i := IndexOf(keyControls, control);
      ghost var before := keyControls;
      keyControls := keyControls[..i] + keyControls[i + 1..];
      assert forall k :: 0 <= k < |keyControls| ==> keyControls[k] == before[if k < i then k else k + 1];
      controlId := Some(i + 1);
    }

    /** The renumbering loop of remove_key_control: control k (from 0) is
        retitled "Key k+1"; nothing else changes. */
    method RenumberTitles()
      requires Valid()
      modifies keyControls
      ensures Valid() && keyControls == old(keyControls)
      ensures forall k :: 0 <= k < |keyControls| ==> keyControls[k].title == KeyTitle(k + 1)
      ensures forall k :: 0 <= k < |keyControls| ==> OnlyTitleChanged(keyControls[k])
    {
      for k := 0 to |keyControls|
        invariant forall m :: 0 <= m < k ==> keyControls[m].title == KeyTitle(m + 1)
        invariant forall m :: 0 <= m < |keyControls| ==> OnlyTitleChanged(keyControls[m])
      {
        keyControls[k].title := KeyTitle(k + 1);
      }
    }
  }
}

=== FILE: browser.dfy ===
/** The main window (main.py): the tab widget with its trailing "+" tab,
    the dictionary from control id to simulator, and the handlers that tie
    the control panel to the simulators. */
module Browser {
  import opened KeyConfig
  import opened KeySimulator
  import opened AutoPress

  /** A tab: a game page, or the disabled tab that carries the "+" button. */
  datatype Tab = GameTab(text: string) | NewTabButton

  /** The label add_new_tab gives every game tab. */
  const GameTabLabel: string := "FlyFF Universe"

  /** What toggle_auto_press does: start or stop the simulator, or fail with
      the IndexError or KeyError Python raises before changing anything. */
  datatype ToggleResult = Started(config: KeyPressConfig) | Deactivated | IndexError | KeyError

  /** How one timeout emission ends: every handler ran, or a rescheduling
      callback raised KeyError because its id had no simulator any more. */
  datatype TimeoutResult = TimeoutCompleted | TimeoutKeyError

  /** Python's list indexing: a negative index counts from the end. */
  function PyIndex(length: nat, i: int): (r: Option<nat>)
    ensures r.Some? ==> r.value < length
    ensures r.Some? <==> -(length as int) <= i < length
    ensures r.Some? && i >= 0 ==> r.value == i
    ensures r.Some? && i < 0 ==> r.value == length + i
  {
    if 0 <= i < length then Some(i)
    else if -(length as int) <= i < 0 then Some(length + i)
    else None
  }

  /** The shape of the tab bar: game tabs, then the "+" tab last. */
  predicate TabsWellFormed(tabs: seq<Tab>)
  {
    && |tabs| >= 1
    && tabs[|tabs| - 1] == NewTabButton
    && forall i :: 0 <= i < |tabs| - 1 ==> tabs[i].GameTab?
  }

  /** CustomTabWidget: a QTabWidget whose last tab is the "+" tab. */
  class CustomTabWidget {
    var tabs: seq<Tab>

    /** The constructor adds the "+" tab through addTab. */
    constructor ()
      ensures tabs == [NewTabButton]
    {
      tabs := [];
      new;
      var _ := AddTab(NewTabButton);
    }

    function Count(): nat
      reads this
    {
      |tabs|
    }

    /** addTab: insert before the last tab, so that the "+" tab stays last.
        QTabWidget.insertTab appends when the index is out of range, which
        is what happens to the very first tab (index -1). */
    method AddTab(tab: Tab) returns (index: int)
      modifies this
      ensures index == if |old(tabs)| == 0 then 0 else |old(tabs)| - 1
      ensures 0 <= index < |tabs| == |old(tabs)| + 1 && tabs[index] == tab
      ensures tabs == old(tabs)[..index] + [tab] + old(tabs)[index..]
      ensures old(tabs) != [] ==> tabs[|tabs| - 1] == old(tabs)[|old(tabs)| - 1]
      ensures TabsWellFormed(old(tabs)) && tab.GameTab? ==> TabsWellFormed(tabs)
    {
      var at := |tabs| - 1;
      if 0 <= at {
        tabs := tabs[..at] + [tab] + tabs[at..];
        index := at;
      } else {
        tabs := tabs + [tab];
        index := |tabs| - 1;
      }
    }

    /** QTabWidget.removeTab: out-of-range indexes are ignored. */
    method RemoveTab(index: int)
      modifies this
      ensures 0 <= index < |old(tabs)| ==> tabs == old(tabs)[..index] + old(tabs)[index + 1..]
      ensures !(0 <= index < |old(tabs)|) ==> tabs == old(tabs)
    {
      if 0 <= index < |tabs| {
        tabs := tabs[..index] + tabs[index + 1..];
      }
    }
  }

  /** FlyffBrowser: the main window. */
  class FlyffBrowser {
    const tabWidget: CustomTabWidget
    const autoPressControls: AutoPressControls
    var keySimulators: map<int, KeyPressSimulator>

    /** The panel is well formed, every listed control has been bound to an
        id, each id has its own simulator object, every simulator is well
        formed, and the rescheduling callbacks of the simulator under an id
        name that id. */
    ghost predicate Valid()
      reads this, autoPressControls, autoPressControls.keyControls, keySimulators.Values
    {
      && autoPressControls.Valid()
      && (forall i :: 0 <= i < |autoPressControls.keyControls| ==>
            autoPressControls.keyControls[i].boundId.Some?)
      && (forall a, b :: a in keySimulators && b in keySimulators && a != b ==>
            keySimulators[a] != keySimulators[b])
      && (forall s :: s in keySimulators.Values ==> s.Valid())
      && (forall id :: id in keySimulators ==> CarriesOnly(keySimulators[id].timer.handlers, id))
    }

    /** The window starts with one game tab before the "+" tab, no controls
        and no simulators. */
    constructor ()
      ensures Valid() && fresh(tabWidget) && fresh(autoPressControls)
      ensures tabWidget.tabs == [GameTab(GameTabLabel), NewTabButton]
      ensures TabsWellFormed(tabWidget.tabs)
      ensures autoPressControls.keyControls == [] && keySimulators == map[]
    {
      tabWidget := new CustomTabWidget();
      autoPressControls := new AutoPressControls();
      keySimulators := map[];
      new;
      var index := AddNewTab();
      assert index == 0;
    }

    /** add_new_tab: a game tab is inserted before the "+" tab; the tab bar
        keeps its shape. */
    method AddNewTab() returns (index: int)
      modifies tabWidget
      ensures index == if |old(tabWidget.tabs)| == 0 then 0 else |old(tabWidget.tabs)| - 1
      ensures tabWidget.tabs ==
        old(tabWidget.tabs)[..index] + [GameTab(GameTabLabel)] + old(tabWidget.tabs)[index..]
      ensures TabsWellFormed(old(tabWidget.tabs)) ==> TabsWellFormed(tabWidget.tabs)
    {
      index := tabWidget.AddTab(GameTab(GameTabLabel));
    }

    /** close_tab: remove the tab only while more than one tab exists. */
    method CloseTab(index: int)
      modifies tabWidget
      ensures |old(tabWidget.tabs)| <= 1 ==> tabWidget.tabs == old(tabWidget.tabs)
      ensures |old(tabWidget.tabs)| > 1 && 0 <= index < |old(tabWidget.tabs)| ==>
        tabWidget.tabs == old(tabWidget.tabs)[..index] + old(tabWidget.tabs)[index + 1..]
      ensures |old(tabWidget.tabs)| > 1 && !(0 <= index < |old(tabWidget.tabs)|) ==>
        tabWidget.tabs == old(tabWidget.tabs)
      ensures |tabWidget.tabs| >= 1 <==> |old(tabWidget.tabs)| >= 1
    {
      if tabWidget.Count() > 1 {
        tabWidget.RemoveTab(index);
      }
    }

    /** add_key_simulator: map the id to a new, inactive simulator on the
        given web view (the current tab's), replacing any simulator the id
        had; other ids keep theirs. */
    method AddKeySimulator(controlId: int, view: WebView)
      requires autoPressControls.Valid()
      requires forall a, b :: a in keySimulators && b in keySimulators && a != b ==>
        keySimulators[a] != keySimulators[b]
      requires forall s :: s in keySimulators.Values ==> s.Valid()
      requires forall id :: id in keySimulators ==> CarriesOnly(keySimulators[id].timer.handlers, id)
      modifies this`keySimulators
      ensures forall a, b :: a in keySimulators && b in keySimulators && a != b ==>
        keySimulators[a] != keySimulators[b]
      ensures forall s :: s in keySimulators.Values ==> s.Valid()
      ensures forall id :: id in keySimulators ==> CarriesOnly(keySimulators[id].timer.handlers, id)
      ensures controlId in keySimulators && fresh(keySimulators[controlId])
      ensures keySimulators[controlId].State() == SimState(false, None, IdleTimer)
      ensures keySimulators[controlId].webView == view
      ensures keySimulators == old(keySimulators)[controlId := keySimulators[controlId]]
    {
      var simulator := new KeyPressSimulator(view);
      keySimulators := keySimulators[controlId := simulator];
    }

    /** remove_key_simulator: stop and forget the id's simulator; an id
        without one is ignored. */
    method RemoveKeySimulator(controlId: int)
      requires Valid()
      modifies this`keySimulators, if controlId in keySimulators then {keySimulators[controlId]} else {}
      ensures Valid()
      ensures controlId !in old(keySimulators) ==> keySimulators == old(keySimulators)
      ensures controlId in old(keySimulators) ==>
        && keySimulators == old(keySimulators) - {controlId}
        && old(keySimulators)[controlId].State() == Stopped(old(keySimulators[controlId].State()))
    {
      if controlId in keySimulators {
        keySimulators[controlId].Stop();
        keySimulators := keySimulators - {controlId};
      }
    }

    /** connect_key_control: bind the control's toggle button to the id. */
    method ConnectKeyControl(controlId: int, control: KeyPressControl)
      requires control.Valid()
      modifies control`boundId
      ensures control.Valid() && control.boundId == Some(controlId)
    {
      control.boundId := Some(controlId);
    }

    /** What toggle_auto_press may change: the control at position id - 1
        and the simulator under the id. */
    ghost function ToggleFrame(controlId: int): set<object>
      reads this, autoPressControls
    {
      var controls := autoPressControls.keyControls;
      var pos := PyIndex(|controls|, controlId - 1);
      (if pos.Some? then {controls[pos.value] as object} else {}) +
      (if controlId in keySimulators then {keySimulators[controlId] as object} else {})
    }

    /** toggle_auto_press: look up the control at position id - 1; when its
        button is checked, build a config from its spin boxes and the table
        row of its selected key and start the id's simulator with the
        rescheduling callback, otherwise stop the id's simulator. */
    method ToggleAutoPress(controlId: int) returns (r: ToggleResult)
      requires Valid()
      modifies ToggleFrame(controlId)
      ensures Valid()
      ensures var controls := old(autoPressControls.keyControls);
        PyIndex(|controls|, controlId - 1).None? ==> r == IndexError
      ensures var controls := old(autoPressControls.keyControls);
        var pos := PyIndex(|controls|, controlId - 1);
        pos.Some? && controlId !in keySimulators ==> r == KeyError
      ensures r.IndexError? || r.KeyError? ==>
        forall o :: o in old(ToggleFrame(controlId)) ==> unchanged(o)
      ensures var controls := old(autoPressControls.keyControls);
        var pos := PyIndex(|controls|, controlId - 1);
        pos.Some? && controlId in keySimulators && controls[pos.value].checked ==>
          var c := controls[pos.value];
          var row := AvailableKeys[c.keyIndex];
          var config := KeyPressConfig(c.minValue, c.maxValue, row.key, row.code, row.name);
          var s := keySimulators[controlId];
          && r == Started(config)
          && s.isActive && s.config == Some(config)
          && s.timer.running && DelayAllowed(config, s.timer.interval)
          && s.timer.handlers == old(s.timer.handlers) + [RescheduleNext(controlId)]
          && c.buttonText == "Deactivate"
      ensures var controls := old(autoPressControls.keyControls);
        var pos := PyIndex(|controls|, controlId - 1);
        pos.Some? && controlId in keySimulators && !controls[pos.value].checked ==>
          var c := controls[pos.value];
          var s := keySimulators[controlId];
          && r == Deactivated
          && s.State() == Stopped(old(s.State()))
          && c.buttonText == "Activate"
      ensures keySimulators == old(keySimulators)
      ensures forall c :: c in autoPressControls.keyControls ==> OnlyButtonTextChanged(c)
    {
      var controls := autoPressControls.keyControls;
      var pos := PyIndex(|controls|, controlId - 1);
      if pos.None? {
        return IndexError;
      }
      var control := controls[pos.value];
      if control.checked {
        var keyName := control.CurrentKey();
        GetKeyConfigRow(control.keyIndex);
        var config := KeyPressConfig(
          control.minValue,
          control.maxValue,
          keyName,
          GetKeyConfig(keyName).config.keyCode,
          GetKeyConfig(keyName).config.keyName);
        if controlId !in keySimulators {
          return KeyError;
        }
        StartSimulator(controlId, config);
        SetButtonText(control, "Deactivate");
        r := Started(config);
      } else {
        if controlId !in keySimulators {
          return KeyError;
        }
        StopSimulator(controlId);
        SetButtonText(control, "Activate");
        r := Deactivated;
      }
    }

    /** The start call of toggle_auto_press, on the simulator under the id,
        with the main.py callback for that id. */
    method StartSimulator(controlId: int, config: KeyPressConfig)
      requires Valid() && controlId in keySimulators
      modifies keySimulators[controlId]
      ensures Valid()
      ensures var s := keySimulators[controlId];
        && s.isActive && s.config == Some(config)
        && s.timer.running && DelayAllowed(config, s.timer.interval)
        && s.timer.handlers == old(s.timer.handlers) + [RescheduleNext(controlId)]
    {
      keySimulators[controlId].Start(config, RescheduleNext(controlId));
    }

    /** The stop call of toggle_auto_press, on the simulator under the id. */
    method StopSimulator(controlId: int)
      requires Valid() && controlId in keySimulators
      modifies keySimulators[controlId]
      ensures Valid()
      ensures keySimulators[controlId].State() == Stopped(old(keySimulators[controlId].State()))
    {
      keySimulators[controlId].Stop();
    }

    /** toggle_btn.setText on a listed control. */
    method SetButtonText(control: KeyPressControl, text: string)
      requires Valid() && control in autoPressControls.keyControls
      modifies control`buttonText
      ensures Valid() && control.buttonText == text
    {
      control.buttonText := text;
    }

    /** What a click on a control's remove button may change: the
        simulator under the id remove_key_control derives for it. */
    ghost function RemovalFrame(control: KeyPressControl): set<object>
      reads this, autoPressControls
    {
      var controls := autoPressControls.keyControls;
      if control in controls && IndexOf(controls, control) + 1 in keySimulators
      then {keySimulators[IndexOf(controls, control) + 1] as object}
      else {}
    }

    /** A click on "+ Add Key" (add_key_control with its calls on the
        window): a new control with id len + 1 is appended, a new simulator
        on the current tab's view is registered under that id, replacing
        any simulator already there without stopping it, and the control's
        toggle button is bound to the id. */
    method OnAddKeyClicked(view: WebView) returns (controlId: int, control: KeyPressControl)
      requires Valid()
      modifies this, autoPressControls
      ensures Valid()
      ensures controlId == |old(autoPressControls.keyControls)| + 1
      ensures autoPressControls.keyControls == old(autoPressControls.keyControls) + [control]
      ensures fresh(control) && control.boundId == Some(controlId) && !control.checked
      ensures control.caption == KeyTitle(controlId)
      ensures controlId in keySimulators && fresh(keySimulators[controlId])
      ensures keySimulators[controlId].State() == SimState(false, None, IdleTimer)
      ensures keySimulators[controlId].webView == view
      ensures keySimulators == old(keySimulators)[controlId := keySimulators[controlId]]
    {
      controlId, control := autoPressControls.AddKeyControl();
      AddKeySimulator(controlId, view);
      ConnectKeyControl(controlId, control);
    }

    /** A click on a control's remove button (remove_key_control with its
        call on the window): the id is the control's list position plus
        one; the control leaves the list, the others are retitled, and the
        simulator under that id, if any, is stopped and forgotten. None
        stands for the ValueError of an unlisted control. */
    method OnRemoveClicked(control: KeyPressControl) returns (controlId: Option<int>)
      requires Valid()
      modifies this, autoPressControls, autoPressControls.keyControls, RemovalFrame(control)
      ensures Valid()
      ensures control !in old(autoPressControls.keyControls) ==>
        controlId == None && autoPressControls.keyControls == old(autoPressControls.keyControls) &&
        keySimulators == old(keySimulators)
      ensures control in old(autoPressControls.keyControls) ==>
        var i := IndexOf(old(autoPressControls.keyControls), control);
        && controlId == Some(i + 1)
        && autoPressControls.keyControls ==
             old(autoPressControls.keyControls)[..i] + old(autoPressControls.keyControls)[i + 1..]
        && keySimulators == old(keySimulators) - {i + 1}
        && (i + 1 in old(keySimulators) ==>
              old(keySimulators)[i + 1].State() == Stopped(old(keySimulators[i + 1].State())))
      ensures control in old(autoPressControls.keyControls) ==>
        forall k :: 0 <= k < |autoPressControls.keyControls| ==>
          autoPressControls.keyControls[k].title == KeyTitle(k + 1)
      ensures forall c :: c in old(autoPressControls.keyControls) ==> OnlyTitleChanged(c)
    {
      controlId := DetachFromPanel(control);
      if controlId.Some? {
        RemoveKeySimulator(controlId.value);
        RenumberPanel();
      }
    }

    /** The list part of remove_key_control, on the window's panel. */
    method DetachFromPanel(control: KeyPressControl) returns (controlId: Option<int>)
      requires Valid()
      modifies autoPressControls
      ensures Valid()
      ensures control !in old(autoPressControls.keyControls) ==>
        controlId == None && autoPressControls.keyControls == old(autoPressControls.keyControls)
      ensures control in old(autoPressControls.keyControls) ==>
        var i := IndexOf(old(autoPressControls.keyControls), control);
        && controlId == Some(i + 1)
        && autoPressControls.keyControls ==
             old(autoPressControls.keyControls)[..i] + old(autoPressControls.keyControls)[i + 1..]
    {
      controlId := autoPressControls.DetachKeyControl(control);
      assert forall k :: 0 <= k < |autoPressControls.keyControls| ==>
        autoPressControls.keyControls[k] in old(autoPressControls.keyControls);
    }

    /** The renumbering of remove_key_control, on the window's panel. */
    method RenumberPanel()
      requires Valid()
      modifies autoPressControls.keyControls
      ensures Valid()
      ensures forall k :: 0 <= k < |autoPressControls.keyControls| ==>
        autoPressControls.keyControls[k].title == KeyTitle(k + 1)
      ensures forall k :: 0 <= k < |autoPressControls.keyControls| ==>
        OnlyTitleChanged(autoPressControls.keyControls[k])
    {
      autoPressControls.RenumberTitles();
    }

    /** A click on a control's toggle button: the button flips its checked
        state, then toggle_auto_press runs with the id the button was bound
        to, which acts on the control at position id - 1 and on the
        simulator under the id. */
    method OnToggleClicked(control: KeyPressControl) returns (r: ToggleResult)
      requires Valid() && control in autoPressControls.keyControls
      modifies control, ToggleFrame(control.boundId.value)
      ensures Valid()
      ensures control.checked == !old(control.checked) && control.boundId == old(control.boundId)
      ensures keySimulators == old(keySimulators)
      ensures forall c :: c in autoPressControls.keyControls && c != control ==> OnlyButtonTextChanged(c)
      ensures var id := control.boundId.value;
        var controls := autoPressControls.keyControls;
        var pos := PyIndex(|controls|, id - 1);
        && (pos.None? ==> r == IndexError)
        && (pos.Some? && id !in keySimulators ==> r == KeyError)
        && (pos.Some? && id in keySimulators && controls[pos.value].checked ==>
              && r.Started? && keySimulators[id].isActive
              && keySimulators[id].timer.handlers ==
                   old(keySimulators[id].timer.handlers) + [RescheduleNext(id)])
        && (pos.Some? && id in keySimulators && !controls[pos.value].checked ==>
              r == Deactivated && !keySimulators[id].isActive)
    {
      control.Click();
      r := ToggleAutoPress(control.boundId.value);
    }

    /** One timeout of sim's timer. Every handler connected when the signal
        is emitted runs, in connection order, and presses the key (sim is
        active). A rescheduling handler then runs the main.py callback,
        which looks its id up in the dictionary at that moment: the
        simulator found there is rescheduled with a no-op callback, or
        KeyError is raised and the emission ends. sim need not be in the
        dictionary any more; `id` is the id its rescheduling callbacks name. */
    method OnTimeout(sim: KeyPressSimulator, ghost id: int) returns (r: TimeoutResult)
      requires Valid() && sim.Valid() && sim.timer.running
      requires CarriesOnly(sim.timer.handlers, id)
      modifies sim.webView, if id in keySimulators then {keySimulators[id]} else {}
      ensures Valid() && keySimulators == old(keySimulators)
      ensures sim.Valid() && sim.isActive && sim.config == old(sim.config)
      ensures r == TimeoutKeyError <==> id !in keySimulators && Reschedules(old(sim.timer.handlers)) > 0
      ensures var press := EventFor(old(sim.config).value);
        r == TimeoutCompleted ==>
          sim.webView.dispatched == old(sim.webView.dispatched) + Presses(press, |old(sim.timer.handlers)|)
      ensures var pending := old(sim.timer.handlers);
        var press := EventFor(old(sim.config).value);
        r == TimeoutKeyError ==>
          exists k :: 0 <= k < |pending| && pending[k].RescheduleNext? && Reschedules(pending[..k]) == 0 &&
            sim.webView.dispatched == old(sim.webView.dispatched) + Presses(press, k + 1)
      ensures id in keySimulators && old(keySimulators[id].isActive) ==>
        var t := keySimulators[id];
        var n := Reschedules(old(sim.timer.handlers));
        && t.isActive && t.config == old(t.config)
        && t.timer.handlers == old(t.timer.handlers) + NoOps(n)
        && (n == 0 ==> t.timer == old(t.timer))
      ensures id in keySimulators && !old(keySimulators[id].isActive) ==>
        keySimulators[id].State() == old(keySimulators[id].State())
      ensures !(id in keySimulators && keySimulators[id] == sim) ==> sim.State() == old(sim.State())
    {
      var pending := sim.timer.handlers;
      var press := EventFor(sim.config.value);
      ghost var hasTarget := id in keySimulators;
      ghost var t := if hasTarget then keySimulators[id] else sim;
      ghost var active := hasTarget && t.isActive;
      var i := 0;
      r := TimeoutCompleted;
      while i < |pending|
        invariant 0 <= i <= |pending| && r == TimeoutCompleted
        invariant Valid() && keySimulators == old(keySimulators)
        invariant sim.Valid() && sim.isActive && sim.config == old(sim.config)
        invariant sim.webView.dispatched == old(sim.webView.dispatched) + Presses(press, i)
        invariant !hasTarget ==> Reschedules(pending[..i]) == 0
        invariant active ==> t.isActive && t.config == old(t.config)
        invariant active ==> t.timer.handlers == old(t.timer.handlers) + NoOps(Reschedules(pending[..i]))
        invariant active && Reschedules(pending[..i]) == 0 ==> t.timer == old(t.timer)
        invariant hasTarget && !active ==> t.State() == old(t.State())
      {
        assert pending[..i + 1][..i] == pending[..i];
        var raised := RunHandler(sim, pending[i], id, hasTarget, t);
        PressesSnoc(press, i);
        if raised {
          ReschedulesPrefix(pending, i);
          r := TimeoutKeyError;
          break;
        }
        NoOpsSnoc(Reschedules(pending[..i]));
        i := i + 1;
      }
      if r == TimeoutCompleted {
        assert pending[..i] == pending;
      }
    }

    /** The timeout handler connected for callback (the slot of
        key_simulator.py:35): press the key, then run the callback. A
        rescheduling callback reschedules the simulator under its id with a
        no-op callback, or raises KeyError when the id has none. `hasTarget`
        and `target` say what the dictionary holds under `id`. */
    method RunHandler(sim: KeyPressSimulator, callback: Callback,
                      ghost id: int, ghost hasTarget: bool, ghost target: KeyPressSimulator)
      returns (raised: bool)
      requires Valid() && sim.Valid() && sim.isActive
      requires callback.RescheduleNext? ==> callback.controlId == id
      requires hasTarget <==> id in keySimulators
      requires hasTarget ==> target == keySimulators[id]
      modifies sim.webView, if hasTarget then {target} else {}
      ensures Valid()
      ensures sim.Valid() && sim.isActive && sim.config == old(sim.config)
      ensures sim.webView.dispatched == old(sim.webView.dispatched) + [EventFor(old(sim.config).value)]
      ensures raised <==> callback.RescheduleNext? && !hasTarget
      ensures hasTarget && old(target.isActive) ==>
        && target.isActive && target.config == old(target.config)
        && target.timer.handlers ==
             old(target.timer.handlers) + (if callback.RescheduleNext? then [NoOp] else [])
        && (callback.NoOp? ==> target.timer == old(target.timer))
      ensures hasTarget && !old(target.isActive) ==> target.State() == old(target.State())
    {
      var callsBack := sim.SimulatePress();
      raised := false;
      if callsBack {
        match callback
        case NoOp =>
        case RescheduleNext(controlId) =>
          if controlId !in keySimulators {
            raised := true;
          } else {
            keySimulators[controlId].ScheduleNextPress(NoOp);
          }
      }
    }
  }

  /** As written, ids are list positions plus one and are reused: after the
      first of two controls is removed, adding a control hands out id 2
      again. Both remaining controls are then bound to id 2, and the running
      simulator of the second control is replaced in the dictionary without
      being stopped. Deactivating that control afterwards stops the new
      simulator, removing it targets id 1, and the orphaned simulator keeps
      running: no part of the program can stop it any more. Only the
      handlers connected to its own timer still refer to it, so in Python
      it runs until that cycle is garbage-collected; the model never
      reclaims an object. */
  method ReusedIdOrphansRunningSimulator(view: WebView)
    returns (browser: FlyffBrowser, orphan: KeyPressSimulator)
    ensures browser.Valid()
    ensures orphan.isActive && orphan.timer.running
    ensures orphan !in browser.keySimulators.Values
    ensures browser.keySimulators.Keys == {2}
    ensures |browser.autoPressControls.keyControls| == 1
    ensures browser.autoPressControls.keyControls[0].boundId == Some(2)
    ensures orphan.Valid() && orphan.webView == view && orphan.timer.handlers == [RescheduleNext(2)]
    ensures fresh(browser) && fresh(browser.autoPressControls)
    ensures fresh(browser.autoPressControls.keyControls[0])
    ensures forall s :: s in browser.keySimulators.Values ==> fresh(s)
  {
    var first, second, third;
    browser, first, second, orphan := SecondControlActive(view);
    assert browser.keySimulators[1] in browser.keySimulators.Values;
    RemoveFirstControl(browser, first, second, orphan);
    third := ReuseId(browser, view, second, orphan);
    assert browser.keySimulators[2] in browser.keySimulators.Values;
    DeactivateAndRemoveSecond(browser, second, third, orphan);
  }

  /** What the orphan does next, as written. Its rescheduling callback
      still names id 2 and looks it up when it runs. While the simulator
      under id 2 is inactive, a timeout of the orphan only presses the key.
      After a control is added (getting id 2 once more) and removed again,
      id 2 has no simulator, and the orphan's next timeout raises KeyError
      inside the timer slot. Both hold while the orphan has not been
      garbage-collected. */
  method OrphanFiringRaisesKeyError() returns (quiet: TimeoutResult, raised: TimeoutResult)
    ensures quiet == TimeoutCompleted
    ensures raised == TimeoutKeyError
  {
    var view := new WebView();
    var browser, orphan := ReusedIdOrphansRunningSimulator(view);
    quiet := browser.OnTimeout(orphan, 2);
    DropIdTwo(browser, view);
    ReschedulesSingle(RescheduleNext(2));
    raised := browser.OnTimeout(orphan, 2);
  }

  /** A step of OrphanFiringRaisesKeyError: with one control listed,
      adding a control hands out id 2, and removing that new control
      (position 1) removes id 2, leaving no simulator at all. */
  method DropIdTwo(browser: FlyffBrowser, view: WebView)
    requires browser.Valid()
    requires |browser.autoPressControls.keyControls| == 1 && browser.keySimulators.Keys <= {2}
    modifies browser, browser.autoPressControls, browser.autoPressControls.keyControls[0]
    ensures browser.Valid() && browser.keySimulators == map[]
  {
    var other := browser.autoPressControls.keyControls[0];
    var controlId, control := browser.OnAddKeyClicked(view);
    assert browser.autoPressControls.keyControls == [other, control];
    var removedId := browser.OnRemoveClicked(control);
  }

  /** One timeout of a registered, active simulator, whose rescheduling
      callbacks find it under its own id, is the value-level AfterFiring:
      every connected handler presses the key once, no KeyError is raised,
      and the handler list becomes AfterFiring of the old one. */
  method TimeoutIsAfterFiring(b: FlyffBrowser, id: int) returns (r: TimeoutResult)
    requires b.Valid() && id in b.keySimulators && b.keySimulators[id].isActive
    modifies b.keySimulators[id], b.keySimulators[id].webView
    ensures r == TimeoutCompleted
    ensures b.Valid() && b.keySimulators == old(b.keySimulators)
    ensures var sim := b.keySimulators[id];
      && sim.isActive
      && sim.timer.handlers == AfterFiring(old(sim.timer.handlers), false)
      && |sim.webView.dispatched| == |old(sim.webView.dispatched)| + |old(sim.timer.handlers)|
  {
    var sim := b.keySimulators[id];
    ghost var h := sim.timer.handlers;
    assert sim in b.keySimulators.Values;
    r := b.OnTimeout(sim, id);
    EmittedAsWritten(h, h);
  }

  /** As written, a simulator started once under its id (one rescheduling
      handler) that fires n times has n + 1 handlers connected, so its
      next timeout dispatches n + 1 presses instead of one. */
  method TimeoutsAccumulate(b: FlyffBrowser, id: int, n: nat) returns (lastPresses: nat)
    requires b.Valid() && id in b.keySimulators && b.keySimulators[id].isActive
    requires b.keySimulators[id].timer.handlers == [RescheduleNext(id)]
    modifies b.keySimulators[id], b.keySimulators[id].webView
    ensures b.Valid() && b.keySimulators == old(b.keySimulators)
    ensures b.keySimulators[id].timer.handlers == [RescheduleNext(id)] + NoOps(n + 1)
    ensures lastPresses == n + 1
  {
    var sim := b.keySimulators[id];
    for k := 0 to n
      invariant b.Valid() && b.keySimulators == old(b.keySimulators)
      invariant sim.isActive && sim.timer.handlers == AfterFirings([RescheduleNext(id)], k, false)
    {
      var r := TimeoutIsAfterFiring(b, id);
    }
    HandlersAccumulate(id, n);
    var before := |sim.webView.dispatched|;
    var r := TimeoutIsAfterFiring(b, id);
    lastPresses := |sim.webView.dispatched| - before;
    HandlersAccumulate(id, n + 1);
  }

  /** The simplest effect of ids being list positions plus one: after the
      first of two controls is removed, the remaining control is still
      bound to id 2, and clicking it makes toggle_auto_press read
      key_controls[1] of a one-element list, raising IndexError. */
  method ToggleAfterRemovalRaisesIndexError(view: WebView) returns (r: ToggleResult)
    ensures r == IndexError
  {
    var browser, first, second, running := SecondControlActive(view);
    assert browser.keySimulators[1] in browser.keySimulators.Values;
    assert running in browser.keySimulators.Values;
    RemoveFirstControl(browser, first, second, running);
    r := browser.OnToggleClicked(second);
  }

  /** The first steps of ReusedIdOrphansRunningSimulator: two controls
      are added and the second one is activated. */
  method SecondControlActive(view: WebView)
    returns (browser: FlyffBrowser, first: KeyPressControl, second: KeyPressControl,
             running: KeyPressSimulator)
    ensures browser.Valid()
    ensures browser.autoPressControls.keyControls == [first, second]
    ensures first.boundId == Some(1) && second.boundId == Some(2)
    ensures browser.keySimulators.Keys == {1, 2}
    ensures running == browser.keySimulators[2] && running.isActive && running.timer.running
    ensures running.webView == view && running.timer.handlers == [RescheduleNext(2)]
    ensures fresh(browser) && fresh(browser.autoPressControls) && fresh(first) && fresh(second)
    ensures forall s :: s in browser.keySimulators.Values ==> fresh(s)
  {
    browser := new FlyffBrowser();
    var firstId, secondId;
    firstId, first := browser.OnAddKeyClicked(view);
    secondId, second := browser.OnAddKeyClicked(view);
    assert browser.autoPressControls.keyControls == [first, second];
    var started := browser.OnToggleClicked(second);
    running := browser.keySimulators[2];
    assert running in browser.keySimulators.Values;
  }

  /** The removal step of ReusedIdOrphansRunningSimulator: removing the
      first control removes id 1, and the second control moves to
      position 0. */
  method RemoveFirstControl(browser: FlyffBrowser, first: KeyPressControl, second: KeyPressControl,
                            running: KeyPressSimulator)
    requires browser.Valid()
    requires browser.autoPressControls.keyControls == [first, second] && second.boundId == Some(2)
    requires browser.keySimulators.Keys == {1, 2} && browser.keySimulators[2] == running
    modifies browser, browser.autoPressControls, first, second, browser.keySimulators[1]
    ensures browser.Valid()
    ensures browser.autoPressControls.keyControls == [second] && second.boundId == Some(2)
    ensures browser.keySimulators.Keys == {2} && browser.keySimulators[2] == running
  {
    var removedId := browser.OnRemoveClicked(first);
    assert second in old(browser.autoPressControls.keyControls);
  }

  /** The last step of ReusedIdOrphansRunningSimulator: deactivating the
      second control stops the simulator now under id 2 (the third
      control's position is id - 1), and removing it targets id 1, which
      has no simulator. */
  method DeactivateAndRemoveSecond(browser: FlyffBrowser, second: KeyPressControl,
                                   third: KeyPressControl, running: KeyPressSimulator)
    requires browser.Valid()
    requires browser.autoPressControls.keyControls == [second, third]
    requires second.boundId == Some(2)
    requires browser.keySimulators.Keys == {2} && browser.keySimulators[2] != running
    modifies browser, browser.autoPressControls, second, third, browser.keySimulators[2]
    ensures browser.Valid()
    ensures browser.autoPressControls.keyControls == [third] && third.boundId == old(third.boundId)
    ensures browser.keySimulators.Keys == {2} && browser.keySimulators[2] == old(browser.keySimulators[2])
  {
    var stopped := browser.OnToggleClicked(second);
    assert browser.autoPressControls.keyControls == [second, third];
    var removedId := browser.OnRemoveClicked(second);
    assert removedId == Some(1);
    assert third in old(browser.autoPressControls.keyControls);
  }

  /** The middle step of ReusedIdOrphansRunningSimulator: with one
      control bound to id 2 listed, adding a control hands out id 2 again
      and replaces the running simulator under it. */
  method ReuseId(browser: FlyffBrowser, view: WebView, second: KeyPressControl,
                 running: KeyPressSimulator)
    returns (third: KeyPressControl)
    requires browser.Valid()
    requires browser.autoPressControls.keyControls == [second] && second.boundId == Some(2)
    requires browser.keySimulators.Keys == {2} && browser.keySimulators[2] == running
    modifies browser, browser.autoPressControls
    ensures browser.Valid()
    ensures browser.autoPressControls.keyControls == [second, third]
    ensures second.boundId == Some(2) && third.boundId == Some(2)
    ensures second.checked == old(second.checked) && !third.checked
    ensures browser.keySimulators.Keys == {2} && browser.keySimulators[2] != running
    ensures fresh(third) && fresh(browser.keySimulators[2])
  {
    var thirdId;
    thirdId, third := browser.OnAddKeyClicked(view);
    assert browser.keySimulators == map[2 := browser.keySimulators[2]];
  }

  /** As written, close_tab counts the "+" tab: on a fresh window, closing
      the only game tab succeeds and leaves just the "+" tab. */
  method LastGameTabClosable() returns (browser: FlyffBrowser)
    ensures browser.tabWidget.tabs == [NewTabButton]
    ensures forall i :: 0 <= i < |browser.tabWidget.tabs| ==> !browser.tabWidget.tabs[i].GameTab?
  {
    browser := new FlyffBrowser();
    browser.CloseTab(0);
  }

  /** Corrected close_tab: the guard accounts for the "+" tab, so a game tab
      is closed only while another one remains, and the "+" tab never is.
      The tab bar keeps its shape and at least one game tab. */
  function CloseTabKeepingGameTab(tabs: seq<Tab>, index: int): (r: seq<Tab>)
    requires TabsWellFormed(tabs)
    ensures TabsWellFormed(r)
    ensures |tabs| >= 2 ==> |r| >= 2
    ensures r == tabs || (0 <= index < |tabs| - 1 && r == tabs[..index] + tabs[index + 1..])
  {
    if |tabs| > 2 && 0 <= index < |tabs| - 1 then tabs[..index] + tabs[index + 1..] else tabs
  }

  /** The id bookkeeping of the panel and the window as values: the id each
      control, in list order, was bound to, the ids the window holds a
      simulator for, and the next id to hand out. */
  datatype Registry = Registry(bound: seq<int>, registered: set<int>, nextId: int)

  /** The intended id bookkeeping: every control has an id of its own,
      exactly the controls' ids have simulators, and the next id is unused. */
  ghost predicate Coherent(r: Registry)
  {
    && (forall i, j :: 0 <= i < j < |r.bound| ==> r.bound[i] != r.bound[j])
    && (forall id :: id in r.registered <==> id in r.bound)
    && (forall i :: 0 <= i < |r.bound| ==> r.bound[i] < r.nextId)
  }

  /** Corrected add_key_control: the id comes from a counter that only
      grows, so it never names a live simulator. */
  function AddControlFreshId(r: Registry): (out: (Registry, int))
    ensures Coherent(r) ==> Coherent(out.0) && out.1 !in r.registered
    ensures out.0.bound == r.bound + [out.1] && out.0.registered == r.registered + {out.1}
  {
    (Registry(r.bound + [r.nextId], r.registered + {r.nextId}, r.nextId + 1), r.nextId)
  }

  /** Corrected remove_key_control: the id removed is the one the control
      was created with, whatever its current position. */
  function RemoveControlOwnId(r: Registry, pos: nat): (out: (Registry, int))
    requires pos < |r.bound|
    ensures out.1 == r.bound[pos]
    ensures out.0.bound == r.bound[..pos] + r.bound[pos + 1..]
    ensures Coherent(r) ==> Coherent(out.0) && out.0.registered == r.registered - {out.1}
  {
    var id := r.bound[pos];
    var rest := r.bound[..pos] + r.bound[pos + 1..];
    assert forall k :: 0 <= k < |rest| ==> rest[k] == r.bound[if k < pos then k else k + 1];
    (Registry(rest, r.registered - {id}, r.nextId), id)
  }
}

=== FILE: key_config.dfy ===
/** The key registry: the fixed table of keys the auto-press feature can
    send, the KeyPressConfig record, and the lookup by display key
    (config.py). */
module KeyConfig {

  datatype Option<T> = None | Some(value: T)

  /** One row of the table: the key as the user sees it, the browser key
      code, and the DOM code name. */
  datatype KeyEntry = KeyEntry(key: string, code: int, name: string)

  /** The KeyPressConfig record: an interval range in whole seconds and the
      identity of the key to press. */
  datatype KeyPressConfig = KeyPressConfig(
    minInterval: int,
    maxInterval: int,
    key: string,
    keyCode: int,
    keyName: string)

  /** What get_key_config produces: a config, or the ValueError it raises. */
  datatype ConfigResult = Found(config: KeyPressConfig) | ValueError(message: string)

  /** The interval defaults get_key_config fills in. */
  const DefaultMinInterval: int := 3
  const DefaultMaxInterval: int := 6

  const DigitKeys: seq<KeyEntry> := [
    KeyEntry("0", 48, "Digit0"),
    KeyEntry("1", 49, "Digit1"),
    KeyEntry("2", 50, "Digit2"),
    KeyEntry("3", 51, "Digit3"),
    KeyEntry("4", 52, "Digit4"),
    KeyEntry("5", 53, "Digit5"),
    KeyEntry("6", 54, "Digit6"),
    KeyEntry("7", 55, "Digit7"),
    KeyEntry("8", 56, "Digit8"),
    KeyEntry("9", 57, "Digit9")
  ]

  const FunctionKeys: seq<KeyEntry> := [
    KeyEntry("F1", 112, "F1"),
    KeyEntry("F2", 113, "F2"),
    KeyEntry("F3", 114, "F3"),
    KeyEntry("F4", 115, "F4"),
    KeyEntry("F5", 116, "F5"),
    KeyEntry("F6", 117, "F6"),
    KeyEntry("F7", 118, "F7"),
    KeyEntry("F8", 119, "F8"),
    KeyEntry("F9", 120, "F9"),
    KeyEntry("F10", 121, "F10"),
    KeyEntry("F11", 122, "F11"),
    KeyEntry("F12", 123, "F12")
  ]

  const AvailableKeys: seq<KeyEntry> := DigitKeys + FunctionKeys

  /** The display keys of a table, in table order (what the key selector of
      a control offers). */
  function DisplayKeys(entries: seq<KeyEntry>): (keys: seq<string>)
    ensures |keys| == |entries|
    ensures forall i :: 0 <= i < |entries| ==> keys[i] == entries[i].key
  {
    seq(|entries|, i requires 0 <= i < |entries| => entries[i].key)
  }

  /** The decimal digit character for d. */
  function DigitChar(d: nat): (c: char)
    requires d < 10
    ensures '0' <= c <= '9'
    ensures c as int - '0' as int == d
  {
    ('0' as int + d) as char
  }

  /** The decimal spelling of n, without leading zeros (Python's str(n)). */
  function Decimal(n: nat): (s: string)
    ensures |s| >= 1
    ensures |s| == 1 <==> n < 10
    ensures forall i :: 0 <= i < |s| ==> '0' <= s[i] <= '9'
  {
    if n < 10 then [DigitChar(n)] else Decimal(n / 10) + [DigitChar(n % 10)]
  }

  /** The row the table holds for digit d. */
  function DigitEntry(d: nat): KeyEntry
    requires d < 10
  {
    KeyEntry(Decimal(d), 48 + d, "Digit" + Decimal(d))
  }

  /** The row the table holds for function key Fn. */
  function FunctionEntry(n: nat): KeyEntry
    requires 1 <= n <= 12
  {
    KeyEntry("F" + Decimal(n), 111 + n, "F" + Decimal(n))
  }

  /** The linear first-match search of get_key_config over a table. */
  function FindEntry(entries: seq<KeyEntry>, keyName: string): (r: Option<KeyEntry>)
    ensures r.None? <==> forall i :: 0 <= i < |entries| ==> entries[i].key != keyName
    ensures r.Some? ==> r.value.key == keyName
    ensures r.Some? ==> exists i :: 0 <= i < |entries| && entries[i] == r.value &&
                                    forall j :: 0 <= j < i ==> entries[j].key != keyName
  {
    if |entries| == 0 then None
    else if entries[0].key == keyName then Some(entries[0])
    else FindEntry(entries[1..], keyName)
  }

  /** get_key_config: the config for a display key, with the default
      intervals, or a ValueError naming the key. */
  function GetKeyConfig(keyName: string): (r: ConfigResult)
    ensures r.Found? <==> exists i :: 0 <= i < |AvailableKeys| && AvailableKeys[i].key == keyName
    ensures r.Found? ==> r.config.key == keyName
    ensures r.Found? ==> r.config.minInterval == 3 && r.config.maxInterval == 6
    ensures r.ValueError? ==> r.message == "Invalid key name: " + keyName
  {
    match FindEntry(AvailableKeys, keyName)
    case Some(e) =>
      Found(KeyPressConfig(DefaultMinInterval, DefaultMaxInterval, e.key, e.code, e.name))
    case None =>
      ValueError("Invalid key name: " + keyName)
  }

  /** The table is the ten digit keys followed by the twelve function keys. */
  lemma AvailableKeysLayout()
    ensures |AvailableKeys| == 22
    ensures AvailableKeys[..10] == DigitKeys && AvailableKeys[10..] == FunctionKeys
  {
  }

  /** Digit key d is shown as d, has key code 48 + d and code name "Digit" + d. */
  lemma DigitKeyRow(d: nat)
    requires d < 10
    ensures AvailableKeys[d] == DigitEntry(d)
  {
    assert d in {0, 1, 2, 3, 4, 5, 6, 7, 8, 9};
  }

  /** Function key Fn sits at position 9 + n, has key code 111 + n, and its
      code name is its display key. */
  lemma FunctionKeyRow(n: nat)
    requires 1 <= n <= 12
    ensures AvailableKeys[9 + n] == FunctionEntry(n)
  {
    assert n in {1, 2, 3, 4, 5, 6, 7, 8, 9, 10, 11, 12};
  }

  /** Numbers below 100 have distinct decimal spellings. */
  lemma DecimalInjective(m: nat, n: nat)
    requires m < 100 && n < 100 && m != n
    ensures Decimal(m) != Decimal(n)
  {
    if |Decimal(m)| == |Decimal(n)| && m >= 10 {
      assert m / 10 != n / 10 || m % 10 != n % 10;
      assert Decimal(m)[0] != Decimal(n)[0] || Decimal(m)[1] != Decimal(n)[1];
    } else if |Decimal(m)| == |Decimal(n)| {
      assert Decimal(m)[0] != Decimal(n)[0];
    }
  }

  /** The display key of a row, from its position in the table. */
  lemma RowKey(i: nat)
    requires i < |AvailableKeys|
    ensures i < 10 ==> AvailableKeys[i].key == Decimal(i)
    ensures 10 <= i ==> AvailableKeys[i].key == "F" + Decimal(i - 9)
  {
    if i < 10 { DigitKeyRow(i); } else { FunctionKeyRow(i - 9); }
  }

  /** Display keys are pairwise distinct, so the first-match search finds
      the only row with a given display key. */
  lemma KeysDistinct(i: nat, j: nat)
    requires i < j < |AvailableKeys|
    ensures AvailableKeys[i].key != AvailableKeys[j].key
  {
    RowKey(i);
    RowKey(j);
    if j < 10 {
      DecimalInjective(i, j);
    } else if i < 10 {
      assert AvailableKeys[i].key[0] != 'F';
    } else {
      DecimalInjective(i - 9, j - 9);
      assert AvailableKeys[i].key[1..] != AvailableKeys[j].key[1..];
    }
  }

  /** Looking up the display key of any row yields exactly that row's code
      and name, with the default intervals. */
  lemma GetKeyConfigRow(i: nat)
    requires i < |AvailableKeys|
    ensures GetKeyConfig(AvailableKeys[i].key) ==
      Found(KeyPressConfig(3, 6, AvailableKeys[i].key, AvailableKeys[i].code, AvailableKeys[i].name))
  {
    var e := AvailableKeys[i];
    var r := FindEntry(AvailableKeys, e.key);
    var k :| 0 <= k < |AvailableKeys| && AvailableKeys[k] == r.value &&
             forall j :: 0 <= j < k ==> AvailableKeys[j].key != e.key;
    if k < i {
      KeysDistinct(k, i);
    }
  }

  /** A key is offered by the key selector exactly when the lookup accepts
      it: the selector only offers keys the table backs. */
  lemma SelectorKeysAccepted(k: string)
    ensures k in DisplayKeys(AvailableKeys) <==> GetKeyConfig(k).Found?
  {
    var d := DisplayKeys(AvailableKeys);
    if k in d {
      var i :| 0 <= i < |d| && d[i] == k;
      GetKeyConfigRow(i);
    }
    if GetKeyConfig(k).Found? {
      var i :| 0 <= i < |AvailableKeys| && AvailableKeys[i].key == k;
      assert d[i] == k;
    }
  }

  /** Building a config for "F5" gives key code 116 and code name "F5". */
  lemma GetKeyConfigF5()
    ensures GetKeyConfig("F5") == Found(KeyPressConfig(3, 6, "F5", 116, "F5"))
  {
    FunctionKeyRow(5);
    GetKeyConfigRow(14);
  }

  /** "F13" is not in the table, so the lookup raises ValueError. */
  lemma GetKeyConfigF13()
    ensures GetKeyConfig("F13") == ValueError("Invalid key name: F13")
  {
    forall i | 0 <= i < |AvailableKeys|
      ensures AvailableKeys[i].key != "F13"
    {
      RowKey(i);
      if 10 <= i {
        DecimalInjective(i - 9, 13);
        assert Decimal(13) == "13";
        assert AvailableKeys[i].key[1..] != "F13"[1..];
      }
    }
  }
}

=== FILE: key_simulator.dfy ===
/** The auto-press simulator (key_simulator.py): an on/off state machine
    that owns a repeating timer, draws a random delay from the configured
    interval range, and dispatches a synthetic key press to its web view
    whenever the timer fires. */
module KeySimulator {
  import opened KeyConfig

  /** The record of one synthetic press dispatched to the page: the key,
      its code name and its key code, as the injected script sends them. */
  datatype KeyEvent = KeyEvent(key: string, code: string, keyCode: int)

  /** The callbacks the program hands to the simulator: a no-op, and the
      lambda of main.py for a control id, which looks that id up in the
      window's dictionary when it runs and reschedules the simulator found
      there with a no-op. */
  datatype Callback = NoOp | RescheduleNext(controlId: int)

  /** Every rescheduling callback among h names the control id `id`. */
  predicate CarriesOnly(h: seq<Callback>, id: int)
  {
    forall i :: 0 <= i < |h| ==> h[i].RescheduleNext? ==> h[i].controlId == id
  }

  /** The QTimer as state: whether it runs, its interval in milliseconds,
      and the callback of each connected timeout handler, in connection
      order. Every handler runs `_simulate_press(callback)`. */
  datatype Timer = Timer(running: bool, interval: int, handlers: seq<Callback>)

  /** A fresh QTimer: stopped, interval 0, nothing connected. */
  const IdleTimer: Timer := Timer(false, 0, [])

  /** The simulator's fields, as one value. */
  datatype SimState = SimState(isActive: bool, config: Option<KeyPressConfig>, timer: Timer)

  /** The event the injected script dispatches for a config. */
  function EventFor(c: KeyPressConfig): KeyEvent
  {
    KeyEvent(c.key, c.keyName, c.keyCode)
  }

  /** The bounds of the delay draw, in milliseconds: the configured interval
      range converted from seconds and put in ascending order. */
  function DelayBounds(c: KeyPressConfig): (b: (int, int))
    ensures b.0 <= b.1
    ensures (b.0 == c.minInterval * 1000 && b.1 == c.maxInterval * 1000) ||
            (b.0 == c.maxInterval * 1000 && b.1 == c.minInterval * 1000)
  {
    var minMs := c.minInterval * 1000;
    var maxMs := c.maxInterval * 1000;
    if minMs > maxMs then (maxMs, minMs) else (minMs, maxMs)
  }

  /** A delay the simulator may draw for config c. */
  predicate DelayAllowed(c: KeyPressConfig, delay: int)
  {
    DelayBounds(c).0 <= delay <= DelayBounds(c).1
  }

  /** Every allowed delay lies between the smaller and the larger configured
      bound, in milliseconds, whichever order they were entered in. */
  lemma DelayWithinConfiguredRange(c: KeyPressConfig, delay: int)
    requires DelayAllowed(c, delay)
    ensures delay >= 1000 * (if c.minInterval <= c.maxInterval then c.minInterval else c.maxInterval)
    ensures delay <= 1000 * (if c.minInterval <= c.maxInterval then c.maxInterval else c.minInterval)
  {
  }

  /** The state stop() leaves behind. */
  function Stopped(s: SimState): (t: SimState)
  {
    s.(isActive := false, timer := s.timer.(running := false))
  }

  /** Stopping leaves the simulator inactive with its timer stopped, and
      stopping a second time changes nothing more. */
  lemma StopIdempotent(s: SimState)
    ensures !Stopped(s).isActive && !Stopped(s).timer.running
    ensures Stopped(Stopped(s)) == Stopped(s)
  {
  }

  /** t is a state _schedule_next_press(callback) may reach from s: nothing
      changes when s is inactive or has no config; otherwise the timer runs
      with a freshly drawn allowed delay and one more handler, carrying
      callback, is connected. */
  ghost predicate Rescheduled(s: SimState, t: SimState, callback: Callback)
  {
    if !s.isActive || s.config.None? then t == s
    else
      && t.isActive == s.isActive
      && t.config == s.config
      && t.timer.running
      && DelayAllowed(s.config.value, t.timer.interval)
      && t.timer.handlers == s.timer.handlers + [callback]
  }

  /** The number of rescheduling callbacks among some handlers. */
  function Reschedules(h: seq<Callback>): (n: nat)
    ensures n <= |h|
  {
    if h == [] then 0
    else Reschedules(h[..|h| - 1]) + (if h[|h| - 1].RescheduleNext? then 1 else 0)
  }

  /** How a handler is connected. As written, every connect adds a handler;
      with `once`, a connect adds one only while none is connected. */
  function Connect(h: seq<Callback>, callback: Callback, once: bool): (r: seq<Callback>)
    ensures h <= r && |r| <= |h| + 1
    ensures !once ==> r[|h|..] == [callback]
  {
    if once && h != [] then h else h + [callback]
  }

  /** The handlers of a simulator whose rescheduling callbacks find the
      simulator itself in the window's dictionary, after the handlers
      `pending`, captured when the timeout signal is emitted, have run in
      order, starting from `start`: each RescheduleNext handler reschedules
      with a NoOp callback, which connects through Connect. */
  function Emitted(pending: seq<Callback>, start: seq<Callback>, once: bool): (r: seq<Callback>)
    ensures start <= r && |r| <= |start| + Reschedules(pending)
  {
    if pending == [] then start
    else
      var before := Emitted(pending[..|pending| - 1], start, once);
      if pending[|pending| - 1].RescheduleNext? then Connect(before, NoOp, once) else before
  }

  /** The handlers connected after one timeout of a timer whose handlers are
      h, when the rescheduling callbacks reschedule this same simulator. */
  function AfterFiring(h: seq<Callback>, once: bool): (r: seq<Callback>)
    ensures h <= r && |r| <= |h| + Reschedules(h)
  {
    Emitted(h, h, once)
  }

  /** The handlers connected after n timeouts, starting from h. */
  function AfterFirings(h: seq<Callback>, n: nat, once: bool): (r: seq<Callback>)
    ensures h <= r
  {
    if n == 0 then h else AfterFiring(AfterFirings(h, n - 1, once), once)
  }

  /** n NoOp handlers. */
  function NoOps(n: nat): (h: seq<Callback>)
    ensures |h| == n
  {
    seq(n, _ => NoOp)
  }

  /** n presses of the same event, in order. */
  function Presses(e: KeyEvent, n: nat): (log: seq<KeyEvent>)
    ensures |log| == n
  {
    seq(n, _ => e)
  }

  /** One more press. */
  lemma PressesSnoc(e: KeyEvent, n: nat)
    ensures Presses(e, n) + [e] == Presses(e, n + 1)
  {
    assert forall i :: 0 <= i < n + 1 ==> (Presses(e, n) + [e])[i] == e;
  }

  /** One more NoOp handler. */
  lemma NoOpsSnoc(n: nat)
    ensures NoOps(n) + [NoOp] == NoOps(n + 1)
  {
    assert forall i :: 0 <= i < n + 1 ==> (NoOps(n) + [NoOp])[i] == NoOp;
  }

  lemma {:induction false} ReschedulesNoOps(n: nat)
    ensures Reschedules(NoOps(n)) == 0
  {
    if n > 0 {
      assert NoOps(n)[..n - 1] == NoOps(n - 1);
      ReschedulesNoOps(n - 1);
    }
  }

  lemma {:induction false} ReschedulesAppend(a: seq<Callback>, b: seq<Callback>)
    ensures Reschedules(a + b) == Reschedules(a) + Reschedules(b)
  {
    if b == [] {
      assert a + b == a;
    } else {
      assert (a + b)[..|a + b| - 1] == a + b[..|b| - 1];
      ReschedulesAppend(a, b[..|b| - 1]);
    }
  }

  /** A single handler reschedules exactly when its callback does. */
  lemma ReschedulesSingle(c: Callback)
    ensures Reschedules([c]) == if c.RescheduleNext? then 1 else 0
  {
    assert [c][..0] == [];
  }

  /** A rescheduling handler at position i counts towards every handler
      list that contains it. */
  lemma ReschedulesPrefix(h: seq<Callback>, i: nat)
    requires i < |h| && h[i].RescheduleNext?
    ensures Reschedules(h) >= Reschedules(h[..i]) + 1
  {
    ReschedulesAppend(h[..i + 1], h[i + 1..]);
    assert h[..i + 1] + h[i + 1..] == h;
    assert h[..i + 1][..i] == h[..i];
  }

  /** As written, a timeout connects one more NoOp handler for every
      rescheduling handler that ran. */
  lemma {:induction false} EmittedAsWritten(pending: seq<Callback>, start: seq<Callback>)
    ensures Emitted(pending, start, false) == start + NoOps(Reschedules(pending))
  {
    if pending != [] {
      var init := pending[..|pending| - 1];
      EmittedAsWritten(init, start);
      NoOpsSnoc(Reschedules(init));
    }
  }

  /** As written, after n timeouts of a simulator started once by main.py
      under id (one RescheduleNext handler) and still registered under it,
      n + 1 handlers are connected: the (n+1)-th timeout dispatches n + 1
      presses instead of one. */
  lemma {:induction false} HandlersAccumulate(id: int, n: nat)
    ensures AfterFirings([RescheduleNext(id)], n, false) == [RescheduleNext(id)] + NoOps(n)
    ensures |AfterFirings([RescheduleNext(id)], n, false)| == n + 1
  {
    if n > 0 {
      HandlersAccumulate(id, n - 1);
      var h := [RescheduleNext(id)] + NoOps(n - 1);
      assert AfterFirings([RescheduleNext(id)], n, false) == Emitted(h, h, false);
      ReschedulesAppend([RescheduleNext(id)], NoOps(n - 1));
      ReschedulesSingle(RescheduleNext(id));
      ReschedulesNoOps(n - 1);
      assert Reschedules(h) == 1;
      EmittedAsWritten(h, h);
      NoOpsSnoc(0);
      NoOpsSnoc(n - 1);
      assert h + NoOps(1) == [RescheduleNext(id)] + (NoOps(n - 1) + [NoOp]);
    }
  }

  /** With a connect that adds a handler only while none is connected, the
      emission leaves a non-empty handler list as it is. */
  lemma {:induction false} EmittedConnectOnce(pending: seq<Callback>, start: seq<Callback>)
    requires start != []
    ensures Emitted(pending, start, true) == start
  {
    if pending != [] {
      EmittedConnectOnce(pending[..|pending| - 1], start);
    }
  }

  /** Corrected: when _schedule_next_press connects only while no handler is
      connected, a started simulator keeps exactly its one rescheduling
      handler however often the timer fires, so every timeout dispatches
      exactly one press and redraws the delay. */
  lemma {:induction false} SingleHandlerWhenConnectingOnce(id: int, n: nat)
    ensures AfterFirings([RescheduleNext(id)], n, true) == [RescheduleNext(id)]
  {
    if n > 0 {
      SingleHandlerWhenConnectingOnce(id, n - 1);
      EmittedConnectOnce([RescheduleNext(id)], [RescheduleNext(id)]);
    }
  }

  /** The web page a simulator presses keys in; it records every dispatched
      press. */
  class WebView {
    var dispatched: seq<KeyEvent>

    constructor ()
      ensures dispatched == []
    {
      dispatched := [];
    }
  }

  /** KeyPressSimulator. */
  class KeyPressSimulator {
    const webView: WebView
    var isActive: bool
    var config: Option<KeyPressConfig>
    var timer: Timer

    function State(): SimState
      reads this
    {
      SimState(isActive, config, timer)
    }

    /** The timer runs exactly while the simulator is active, and an active
        simulator has a config and a timer interval drawn from it. */
    ghost predicate Valid()
      reads this
    {
      && (timer.running <==> isActive)
      && (isActive ==> config.Some? && DelayAllowed(config.value, timer.interval))
    }

    /** A new simulator is inactive, has no config and an idle timer. */
    constructor (view: WebView)
      ensures Valid()
      ensures webView == view
      ensures State() == SimState(false, None, IdleTimer)
    {
      webView := view;
      timer := IdleTimer;
      isActive := false;
      config := None;
    }

    /** start: store the config, become active, schedule the first press. */
    method Start(c: KeyPressConfig, callback: Callback)
      requires Valid()
      modifies this
      ensures Valid()
      ensures isActive && config == Some(c)
      ensures Rescheduled(SimState(true, Some(c), old(timer)), State(), callback)
      ensures timer.running && DelayAllowed(c, timer.interval)
      ensures timer.handlers == old(timer.handlers) + [callback]
    {
      config := Some(c);
      isActive := true;
      ScheduleNextPress(callback);
    }

    /** stop: become inactive and stop the timer; handlers stay connected. */
    method Stop()
      requires Valid()
      modifies this
      ensures Valid()
      ensures State() == Stopped(old(State()))
    {
      isActive := false;
      timer := timer.(running := false);
    }

    /** _schedule_next_press: draw a delay in the normalised range, restart
        the timer with it and connect one more timeout handler. */
    method ScheduleNextPress(callback: Callback)
      requires Valid() || (isActive && config.Some?)
      modifies this
      ensures Valid()
      ensures Rescheduled(old(State()), State(), callback)
    {
      if !isActive || config.None? {
        return;
      }
      var minMs := config.value.minInterval * 1000;
      var maxMs := config.value.maxInterval * 1000;
      if minMs > maxMs {
        minMs, maxMs := maxMs, minMs;
      }
      var newInterval :| minMs <= newInterval <= maxMs;
      timer := timer.(running := false);
      timer := timer.(running := true, interval := newInterval);
      timer := timer.(handlers := timer.handlers + [callback]);
    }

    /** _simulate_press: when active with a config, dispatch one press of
        the configured key to the web view. `callsBack` says whether the
        callback runs next; the window runs it (FlyffBrowser.OnTimeout),
        since the main.py callback reads the window's dictionary. */
    method SimulatePress() returns (callsBack: bool)
      requires Valid()
      modifies webView
      ensures callsBack <==> isActive && config.Some?
      ensures callsBack ==> webView.dispatched == old(webView.dispatched) + [EventFor(config.value)]
      ensures !callsBack ==> webView.dispatched == old(webView.dispatched)
    {
      if !isActive || config.None? {
        return false;
      }
      webView.dispatched := webView.dispatched + [EventFor(config.value)];
      return true;
    }
  }
}
